=== FILE: README.md ===
# EFS request reconciler — Dafny model

This project models the reconciliation engine of a Kubernetes controller that
provisions AWS EFS file systems for `EfsRequest` custom resources. The model
has four parts:

- **Resource model** (`resource.dfy`, module `EfsResource`). It holds the request spec
  (`name`, `owner`) and the controller-owned status (`file_system_id`,
  `condition`). The condition is one of five phases, and only `Failed` carries a
  `reason`. The module also gives the `Default` values.
- **Wire shape** (`wire.dfy`, module `Wire`). It covers the JSON the status is
  persisted as. The condition is internally tagged by `"phase"`. `reason` is
  present only for `Failed`. An absent file system id is written as `null`. The
  module also holds the `{"status": ...}` patch body, the decoders, and the
  round trips.
- **Provider adapter** (`provider.dfy`, module `Provider`). It builds the
  create-file-system request: creation token `"test"` and the tags `Name` and
  `Owner`. It also flattens provider errors (`fmt_aws_error`) and maps the call's
  result to a status (`create_efs`).
- **Reconciler and driver** (`reconciler.dfy`, `controller.dfy`). `Decide` picks
  the next status. `Reconcile` patches the status only when it changed and
  chooses the requeue delay: 20 s, or 60 s from `error_policy` when serialisation
  or the patch fails. `Controller` chains passes against a store that keeps the
  last status written successfully. The code itself only handles one object
  snapshot per pass and never reads the object back. So the multi-pass results
  rest on the store assumptions listed under "## Left out".

The provider call and the status write are not performed. Their outcomes are
parameters: a `Result<string, ProviderError>` for the call and a `PatchOutcome`
for the write. So every operation is a pure function.

Behaviour kept as the code has it:
- `CreatingMountTargets` resets to the default status, which discards a recorded
  file system id (`MountTargetsResetDiscardsId`).
- `Failed` is a hold phase: no pass ever leaves it.
- `name` and `owner` are not checked for emptiness, because the code does not check them.

## Model

| member | source | states |
|---|---|---|
| EfsResource.DefaultCondition | src/lib.rs:60-64 | the default condition is the first phase of the progress order, which is `Initialised` (see `DefaultStatusIsInitial`) |
| EfsResource.DefaultStatus | src/lib.rs:44 | the derived default status has no file system id, is in the first phase, and satisfies the id/phase invariant (see `DefaultStatusIsInitial`) |
| EfsResource.DefaultStatusIsInitial | src/lib.rs:44-64 | the default status has no file system id, is in phase `Initialised` (rank 0), and satisfies the id/phase invariant |
| EfsResource.FiveVariantsOnlyFailedCarriesPayload | src/lib.rs:52-58 | a condition is exactly one of five variants; the four other than `Failed` are each a single payload-free value |
| EfsResource.PhaseNameIdentifiesVariant | src/lib.rs:51-58 | two conditions have the same phase name iff they are the same variant |
| EfsResource.ConditionEqualityIsStructural | src/lib.rs:50-58 | two conditions are equal iff they have the same phase name and, when both are `Failed`, the same reason |
| EfsResource.StatusEqualityIsStructural | src/lib.rs:44-48 | two statuses are equal iff both their file system ids and their conditions are equal |
| Wire.EncodeCondition | src/lib.rs:50-58 | the encoding is an object whose `"phase"` is the variant name; its keys are `phase` then `reason`, and `reason` appears iff the variant is `Failed` and then holds the reason |
| Wire.DecodeCondition | src/lib.rs:50-58 | a successful decode read an object whose `"phase"` names the decoded variant, and for `Failed` whose `"reason"` is the decoded reason |
| Wire.ConditionRoundTrip | src/lib.rs:50-58 | decoding an encoded condition returns that condition |
| Wire.EncodeStatus | src/lib.rs:44-48 | the encoding has exactly the keys `file_system_id` and `condition`; the id is `null` iff absent, and the condition is encoded as above |
| Wire.DecodeStatus | src/lib.rs:44-48 | a successful decode found an object with a `condition` member that decodes to the decoded condition, and a string `file_system_id` when an id was decoded |
| Wire.DecodeConditionComplete | src/lib.rs:50-58 | any object whose `phase` names a variant, with a string `reason` for `Failed`, decodes to that variant, whatever its member order and extra members |
| Wire.DecodeStatusComplete | src/lib.rs:44-48 | any object with a decodable `condition` and a missing, `null` or string `file_system_id` decodes to the matching status, whatever its member order and extra members |
| Wire.StatusRoundTrip | src/lib.rs:44-58 | decoding an encoded status returns that status |
| Wire.EncodeStatusInjective | src/lib.rs:44-48 | two statuses have the same encoding iff they are equal |
| Wire.PatchDocument | src/main.rs:111-112 | the patch body is an object whose only key is `status`, and that key holds the encoded status |
| Wire.PatchRoundTrip | src/main.rs:111-112 | the status read back from a patch body is the status it was built from |
| Provider.CreateRequestFor | src/main.rs:46-61 | the creation request carries token `"test"` and exactly two tags, `Name` holding the spec's name and `Owner` holding the owner |
| Provider.StatusFromCreateResult | src/main.rs:70-81 | success with id `x` gives `{Some(x), CreatingFileSystem}`; failure gives no id and `Failed` with the flattened error, which is the body itself for an unknown error; the result satisfies the id/phase invariant |
| Provider.FmtAwsError | src/main.rs:35-43 | an unknown error's body is the reason verbatim, and any other error gives its display text; stated by `Reconciler.FailureCaptureVerbatim` and `Provider.StatusFromCreateResult` |
| Reconciler.ErrorPolicy | src/main.rs:131-135 | every reconcile error requeues after 60 s, longer than the 20 s after a successful pass; `Reconcile`'s requeue clause states the 60 s |
| Reconciler.Decide | src/main.rs:97-108 | a creation request (the spec's) is issued iff the current phase is `Initialised`, and the call's result becomes the status; no status gives the default; hold phases are returned unchanged; `CreatingMountTargets` gives the default; the id/phase invariant is preserved |
| Reconciler.Reconcile | src/main.rs:110-135 | a patch is attempted iff the new status differs from the current one (absent counts as different); its body is exactly the `{"status": ...}` document of the new status, with both status keys (a `null` id included), and reads back as the new status; the pass errs iff a patch was attempted and failed; it requeues after 20 s on success and 60 s on error |
| Reconciler.SingleStepProgression | src/main.rs:97-108 | every pass follows the phase transition table, moves at most one phase forward, and enters `Failed` only from `Initialised` |
| Reconciler.AbsentStatusGetsDefault | src/main.rs:105-108 | with no status, the new status is the default, no provider call is made, and a patch is attempted |
| Reconciler.InitialisedCallsProviderOnce | src/main.rs:99 | in `Initialised`, one call with the spec's request is made; success with id `x` gives `{Some(x), CreatingFileSystem}`, failure gives `{None, Failed(fmt_aws_error(e))}` |
| Reconciler.FailureCaptureVerbatim | src/main.rs:35-43 | an unknown provider error's body becomes the `Failed` reason verbatim, with no file system id |
| Reconciler.HoldIffFixpoint | src/main.rs:98-104 | a pass leaves a status unchanged iff its phase is `CreatingFileSystem`, `Success` or `Failed`, and these phases make no call |
| Reconciler.HoldIsIdempotent | src/main.rs:100-103 | reconciling a hold phase twice gives the same status as reconciling it once, whatever the provider would answer |
| Reconciler.MountTargetsResetDiscardsId | src/main.rs:101 | `CreatingMountTargets` with any id resets to the default status, dropping the id, without a call |
| Reconciler.ProviderCalledOnlyWhenInitialised | src/main.rs:97-104 | a provider call implies that a status is present and its phase is `Initialised` |
| Reconciler.PatchIffChanged | src/main.rs:110-128 | an absent status is always patched; a present one is patched iff it changed; a skipped or successful write requeues after 20 s |
| Controller.Pass | src/main.rs:110-128 | after a successful pass the store holds the new status, whether it was written or was already equal; after a failed pass the store is unchanged |
| Controller.SettledPassIsQuiet | src/main.rs:98-124 | a pass over a stored hold phase makes no call, issues no patch, leaves the store alone and requeues after 20 s |
| Controller.SettledIsAbsorbing | src/main.rs:98-124 | from a stored hold phase, any run of passes makes no call, loses no write and leaves the store unchanged |
| Controller.PassWithoutCallStaysUnsettled | src/main.rs:97-108 | a pass that makes no provider call cannot move an unsettled store into a hold phase |
| Controller.CallWithSuccessfulPatchSettles | src/main.rs:99-121 | a pass that calls the provider and writes its status successfully leaves the store in a hold phase |
| Controller.CreatesBoundedByLostPatches | src/main.rs:97-135 | over any run, creation calls plus one if the run starts settled are at most the failed writes plus one if it ends settled |
| Controller.AtMostOneCreatePerRun | src/main.rs:97-135 | over any run, creation calls are at most the failed writes plus one; when every write succeeds there is at most one creation call |
| Controller.NoLostPatchesWhenAllWritesSucceed | src/main.rs:118-121 | a run whose writes all succeed reports no failed pass |
| Controller.TwoGoodPassesSettle | src/main.rs:97-121 | from any stored status, two passes whose writes succeed leave the store in a hold phase |
| Controller.ConvergesWithinTwoPasses | src/main.rs:97-135 | any run of at least two passes whose writes all succeed ends with the store in a hold phase |
| Controller.NewRequestScenario | src/main.rs:97-128 | request `data`/`bob` with no status: pass 1 stores `{None, Initialised}` without a call; pass 2 calls with tags `Name=data`, `Owner=bob`, stores `{Some(id), CreatingFileSystem}`, patches and requeues after 20 s; pass 3 changes nothing |

## Left out

- `main` (src/main.rs:137-169) is left out. It covers logger setup, client construction, CRD registration that tolerates HTTP 409, and the `Controller` stream. These are process bootstrap and network I/O.
- The async runtime is left out, and so is the per-key serialisation of reconciles. Concurrency belongs to the controller runtime. `Controller.Run` assumes passes for one object happen strictly one after another.
- `create_file_system` and `patch_status` are not modelled as calls. Their outcomes are inputs instead, because they are foreign network clients.
- A failed status write is taken to have stored nothing. A write that reached the server but reported an error is not modelled.
- `serde_json::to_vec` is left out. JSON is modelled as a value tree, not as bytes, so `SerializationFailed` is only an input outcome. In that case `Reconcile` still reports in its `patch` field the body it tried to write.
- Provider.StatusFromCreateResult: `RusotoError::to_string` is not modelled. A non-`Unknown` error is `Other(message)`, and `message` stands for that library text.
- Wire.DecodeStatus: when a key is repeated, the first occurrence is read. serde_json rejects a document with duplicate fields instead. The order in which errors are reported is also not modelled.
- Wire.DecodeCondition: a repeated `phase` or `reason` key is read at its first occurrence too, where serde rejects the duplicate field.
- Controller.Run and the lemmas about it rest on three assumptions about the object store. The code does not enforce them: it receives one object snapshot per pass (src/main.rs:84-87, 159-160) and never reads the object back after `patch_status` (src/main.rs:118-121). (a) The next pass sees the last successful status write. (b) Nothing else writes the status between passes, so an outside actor resetting a `Failed` request is not modelled. (c) A successful write leaves exactly the new status readable. Sending both status keys is what clears a stale id under a merge patch, where the `null` id removes the key. Reading the stored document back as the new status then rests on `Wire.DecodeStatusComplete`: a missing id reads as `None`, and member order does not matter.
- The `#[kube(...)]` CRD metadata (src/lib.rs:6-38) is left out. It is schema registration: group, version, print columns and short name.
- The `Meta::name` and `Meta::namespace` lookups are left out, along with the namespace `expect` (src/main.rs:92-95). All logging is left out too.

=== FILE: controller.dfy ===
/** The driver loop around `reconcile`: the object store holds the status,
    each pass reads it fresh, and a pass's new status is stored only when its
    patch succeeds. Runs of many passes are modelled with the provider and
    patch outcomes of every pass supplied up front. */
module Controller {
  import opened Wrappers
  import opened EfsResource
  import opened Provider
  import opened Reconciler

  /** The outside answers one pass receives. */
  datatype PassInput = PassInput(provider: ProviderResult, patchOutcome: PatchOutcome)

  /** One pass's report and the status the store holds afterwards. */
  datatype PassResult = PassResult(report: ReconcileReport, stored: Option<EfsRequestStatus>)

  /** The totals of a run of passes. */
  datatype RunSummary = RunSummary(stored: Option<EfsRequestStatus>, creates: nat, lostPatches: nat)

  /** One reconcile pass against the store. */
  function Pass(spec: EfsRequestSpec, stored: Option<EfsRequestStatus>, input: PassInput): (t: PassResult)
    ensures t.report == Reconcile(spec, stored, input.provider, input.patchOutcome)
    ensures t.report.result.Ok? ==> t.stored == Some(t.report.newStatus)
    ensures t.report.result.Err? ==> t.stored == stored
  {
    var r := Reconcile(spec, stored, input.provider, input.patchOutcome);
    PassResult(r, if r.patch.Some? && r.result.Ok? then Some(r.newStatus) else stored)
  }

  /** A stored status in a hold phase: nothing will change it again. */
  predicate Settled(stored: Option<EfsRequestStatus>)
  {
    stored.Some? && IsHold(stored.value.condition)
  }

  /** 1 for true and 0 for false, for counting passes. */
  function Indicator(b: bool): nat
  {
    if b then 1 else 0
  }

  /** Runs the passes in order, counting creation calls and failed patches. */
  function Run(spec: EfsRequestSpec, stored: Option<EfsRequestStatus>, inputs: seq<PassInput>): (s: RunSummary)
    decreases |inputs|
  {
    if |inputs| == 0 then RunSummary(stored, 0, 0)
    else
      var t := Pass(spec, stored, inputs[0]);
      var rest := Run(spec, t.stored, inputs[1..]);
      RunSummary(rest.stored,
                 Indicator(t.report.providerRequest.Some?) + rest.creates,
                 Indicator(t.report.result.Err?) + rest.lostPatches)
  }

  /** A settled status is a fixed point of a pass: no call, no patch, normal requeue. */
  lemma SettledPassIsQuiet(spec: EfsRequestSpec, stored: Option<EfsRequestStatus>, input: PassInput)
    requires Settled(stored)
    ensures var t := Pass(spec, stored, input);
            t.stored == stored && t.report.providerRequest.None? && t.report.patch.None?
            && t.report.RequeueAfterSecs() == NormalRequeueSecs
  {
    HoldIffFixpoint(spec, stored.value, input.provider);
  }

  /** Once settled, a run of any length makes no call, loses no patch and
      leaves the store as it was. */
  lemma {:induction false} SettledIsAbsorbing(spec: EfsRequestSpec, stored: Option<EfsRequestStatus>, inputs: seq<PassInput>)
    requires Settled(stored)
    ensures Run(spec, stored, inputs) == RunSummary(stored, 0, 0)
    decreases |inputs|
  {
    if |inputs| > 0 {
      SettledPassIsQuiet(spec, stored, inputs[0]);
      SettledIsAbsorbing(spec, stored, inputs[1..]);
    }
  }

  /** A pass that calls no provider cannot settle an unsettled store. */
  lemma PassWithoutCallStaysUnsettled(spec: EfsRequestSpec, stored: Option<EfsRequestStatus>, input: PassInput)
    requires !Settled(stored)
    requires Pass(spec, stored, input).report.providerRequest.None?
    ensures !Settled(Pass(spec, stored, input).stored)
  {
  }

  /** A creation call whose status write succeeds settles the store. */
  lemma CallWithSuccessfulPatchSettles(spec: EfsRequestSpec, stored: Option<EfsRequestStatus>, input: PassInput)
    requires Pass(spec, stored, input).report.providerRequest.Some?
    requires Pass(spec, stored, input).report.result.Ok?
    ensures Settled(Pass(spec, stored, input).stored)
  {
  }

  /** Counting argument: creation calls are bounded by the status writes that
      were lost. While the store is unsettled every call so far was followed by
      a lost write; settling accounts for exactly one more call. */
  lemma {:induction false} CreatesBoundedByLostPatches(spec: EfsRequestSpec, stored: Option<EfsRequestStatus>, inputs: seq<PassInput>)
    ensures var s := Run(spec, stored, inputs);
            s.creates + Indicator(Settled(stored)) <= s.lostPatches + Indicator(Settled(s.stored))
    decreases |inputs|
  {
    if |inputs| > 0 {
      var t := Pass(spec, stored, inputs[0]);
      CreatesBoundedByLostPatches(spec, t.stored, inputs[1..]);
      if Settled(stored) {
        SettledPassIsQuiet(spec, stored, inputs[0]);
      } else if t.report.providerRequest.None? {
        PassWithoutCallStaysUnsettled(spec, stored, inputs[0]);
      } else if t.report.result.Ok? {
        CallWithSuccessfulPatchSettles(spec, stored, inputs[0]);
      }
    }
  }

  /** With every status write succeeding, the provider is asked to create the
      file system at most once over any run; in general each extra call is
      paid for by one lost write. */
  lemma AtMostOneCreatePerRun(spec: EfsRequestSpec, stored: Option<EfsRequestStatus>, inputs: seq<PassInput>)
    ensures Run(spec, stored, inputs).creates <= Run(spec, stored, inputs).lostPatches + 1
    ensures (forall i :: 0 <= i < |inputs| ==> inputs[i].patchOutcome.PatchOk?) ==>
            Run(spec, stored, inputs).creates <= 1
  {
    CreatesBoundedByLostPatches(spec, stored, inputs);
    if forall i :: 0 <= i < |inputs| ==> inputs[i].patchOutcome.PatchOk? {
      NoLostPatchesWhenAllWritesSucceed(spec, stored, inputs);
    }
  }

  /** A failed status write is only ever reported for a write that failed. */
  lemma {:induction false} NoLostPatchesWhenAllWritesSucceed(spec: EfsRequestSpec, stored: Option<EfsRequestStatus>, inputs: seq<PassInput>)
    requires forall i :: 0 <= i < |inputs| ==> inputs[i].patchOutcome.PatchOk?
    ensures Run(spec, stored, inputs).lostPatches == 0
    decreases |inputs|
  {
    if |inputs| > 0 {
      assert inputs[0].patchOutcome.PatchOk?;
      assert forall i :: 0 <= i < |inputs[1..]| ==> inputs[1..][i] == inputs[i + 1];
      NoLostPatchesWhenAllWritesSucceed(spec, Pass(spec, stored, inputs[0]).stored, inputs[1..]);
    }
  }

  /** Two passes whose writes succeed settle any store. */
  lemma TwoGoodPassesSettle(spec: EfsRequestSpec, stored: Option<EfsRequestStatus>, a: PassInput, b: PassInput)
    requires a.patchOutcome.PatchOk? && b.patchOutcome.PatchOk?
    ensures Settled(Pass(spec, Pass(spec, stored, a).stored, b).stored)
  {
  }

  /** Level-triggered convergence: after at least two passes whose writes
      succeed, the store is settled. */
  lemma {:induction false} ConvergesWithinTwoPasses(spec: EfsRequestSpec, stored: Option<EfsRequestStatus>, inputs: seq<PassInput>)
    requires |inputs| >= 2
    requires forall i :: 0 <= i < |inputs| ==> inputs[i].patchOutcome.PatchOk?
    ensures Settled(Run(spec, stored, inputs).stored)
  {
    var t1 := Pass(spec, stored, inputs[0]);
    var t2 := Pass(spec, t1.stored, inputs[1]);
    TwoGoodPassesSettle(spec, stored, inputs[0], inputs[1]);
    SettledIsAbsorbing(spec, t2.stored, inputs[2..]);
    assert inputs[1..][1..] == inputs[2..];
  }

  /** The end-to-end scenario: a new request is first given the default
      status, the next pass creates the file system and records its id, and
      the pass after that changes nothing. */
  lemma NewRequestScenario(id: string, e: ProviderError)
    ensures var spec := EfsRequestSpec("data", "bob");
            var p1 := Pass(spec, None, PassInput(Err(e), PatchOk));
            var p2 := Pass(spec, p1.stored, PassInput(Ok(id), PatchOk));
            var p3 := Pass(spec, p2.stored, PassInput(Err(e), PatchOk));
            p1.stored == Some(EfsRequestStatus(None, Initialised)) && p1.report.providerRequest.None?
            && p2.report.providerRequest == Some(CreateFileSystemRequest("test", Some([Tag("Name", "data"), Tag("Owner", "bob")])))
            && p2.stored == Some(EfsRequestStatus(Some(id), CreatingFileSystem))
            && p2.report.patch.Some? && p2.report.RequeueAfterSecs() == 20
            && p3.report.patch.None? && p3.report.providerRequest.None? && p3.stored == p2.stored
  {
  }
}

=== FILE: provider.dfy ===
/** The provider adapter of src/main.rs: the create-file-system request built
    from the spec, the flattening of provider errors into a reason string, and
    the mapping of the call's result onto a status. The network call itself is
    replaced by its result, passed in by the caller. */
module Provider {
  import opened Wrappers
  import opened EfsResource

  /** The provider errors the adapter distinguishes: an unrecognised response
      whose body is kept, or any other error with its display text. */
  datatype ProviderError = Unknown(body: string) | Other(message: string)

  /** What one creation call returns: the new file system's id, or an error. */
  type ProviderResult = Result<string, ProviderError>

  /** A key/value tag attached to the created file system. */
  datatype Tag = Tag(key: string, value: string)

  /** The fields of the creation request the adapter sets; all others keep
      the provider library's defaults. */
  datatype CreateFileSystemRequest = CreateFileSystemRequest(creationToken: string, tags: Option<seq<Tag>>)

  /** The fixed idempotency token every creation request carries. */
  const CreationToken := "test"

  /** The value of the first tag named `key`, if any. */
  function TagValue(tags: seq<Tag>, key: string): (v: Option<string>)
    ensures v.Some? <==> exists i :: 0 <= i < |tags| && tags[i].key == key
    ensures v.Some? ==> exists i :: 0 <= i < |tags| && tags[i] == Tag(key, v.value)
                                && forall j :: 0 <= j < i ==> tags[j].key != key
  {
    if |tags| == 0 then None
    else if tags[0].key == key then Some(tags[0].value)
    else
      assert forall i :: 0 <= i < |tags[1..]| ==> tags[1..][i] == tags[i + 1];
      TagValue(tags[1..], key)
  }

  /** The creation request for a spec: the fixed token and exactly the two
      tags `Name` and `Owner`, carrying the spec's fields. */
  function CreateRequestFor(spec: EfsRequestSpec): (req: CreateFileSystemRequest)
    ensures req.creationToken == CreationToken
    ensures req.tags.Some? && |req.tags.value| == 2
    ensures TagValue(req.tags.value, "Name") == Some(spec.name)
    ensures TagValue(req.tags.value, "Owner") == Some(spec.owner)
  {
    CreateFileSystemRequest(CreationToken, Some([Tag("Name", spec.name), Tag("Owner", spec.owner)]))
  }

  /** Flattens a provider error into the human-readable failure reason. */
  function FmtAwsError(e: ProviderError): string
  {
    match e
    case Unknown(body) => body
    case Other(message) => message
  }

  /** The status that results from one creation call. */
  function StatusFromCreateResult(res: ProviderResult): (s: EfsRequestStatus)
    ensures WellFormed(s)
    ensures s.fileSystemId.Some? <==> res.Ok?
    ensures res.Ok? ==> s.fileSystemId == Some(res.value) && s.condition.CreatingFileSystem?
    ensures res.Err? ==> s.condition == Failed(FmtAwsError(res.error))
    ensures res.Err? && res.error.Unknown? ==> s.condition.reason == res.error.body
  {
    match res
    case Ok(id) => EfsRequestStatus(Some(id), CreatingFileSystem)
    case Err(e) => EfsRequestStatus(None, Failed(FmtAwsError(e)))
  }
}

=== FILE: reconciler.dfy ===
/** The reconcile step of src/main.rs: choosing the next status from the
    current one, deciding whether to patch, and choosing the requeue delay. */
module Reconciler {
  import opened Wrappers
  import opened EfsResource
  import opened Wire
  import opened Provider

  /** The next status, and the creation request issued while computing it. */
  datatype Decision = Decision(newStatus: EfsRequestStatus, providerRequest: Option<CreateFileSystemRequest>)

  /** Why a reconcile pass failed after its decision was made. */
  datatype ReconcileError = SerializationFailed(detail: string) | PatchStatusFailed(detail: string)

  /** How the status write went, supplied by the caller. */
  datatype PatchOutcome = PatchOk | PatchErr(error: ReconcileError)

  /** When the controller runtime should reconcile this object again. */
  datatype ReconcilerAction = ReconcilerAction(requeueAfterSecs: nat)

  const NormalRequeueSecs: nat := 20
  const ErrorRequeueSecs: nat := 60

  /** Everything one reconcile pass produces. `patch` is the status patch body
      the pass tried to write, if it tried. */
  datatype ReconcileReport = ReconcileReport(
    newStatus: EfsRequestStatus,
    providerRequest: Option<CreateFileSystemRequest>,
    patch: Option<Json>,
    result: Result<ReconcilerAction, ReconcileError>)
  {
    /** The delay the runtime applies: the pass's own action, or the error policy's. */
    function RequeueAfterSecs(): nat
    {
      match result
      case Ok(action) => action.requeueAfterSecs
      case Err(e) => ErrorPolicy(e).requeueAfterSecs
    }
  }

  /** The error policy: every reconcile error is retried after the long delay,
      which is longer than the delay after a successful pass. */
  function ErrorPolicy(e: ReconcileError): (a: ReconcilerAction)
    ensures a.requeueAfterSecs > NormalRequeueSecs
  {
    ReconcilerAction(ErrorRequeueSecs)
  }

  /** Picks the next status. Only the `Initialised` phase consults the
      provider, whose answer is `provider`. */
  function Decide(spec: EfsRequestSpec, current: Option<EfsRequestStatus>, provider: ProviderResult): (d: Decision)
    ensures d.providerRequest.Some? <==> current.Some? && current.value.condition.Initialised?
    ensures d.providerRequest.Some? ==>
      d.providerRequest.value == CreateRequestFor(spec) && d.newStatus == StatusFromCreateResult(provider)
    ensures current.None? ==> d.newStatus == DefaultStatus()
    ensures current.Some? && IsHold(current.value.condition) ==> d.newStatus == current.value
    ensures current.Some? && current.value.condition.CreatingMountTargets? ==> d.newStatus == DefaultStatus()
    ensures (current.None? || WellFormed(current.value)) ==> WellFormed(d.newStatus)
  {
    match current
    case None => Decision(DefaultStatus(), None)
    case Some(status) =>
      match status.condition
      case Initialised => Decision(StatusFromCreateResult(provider), Some(CreateRequestFor(spec)))
      case CreatingFileSystem => Decision(status, None)
      case CreatingMountTargets => Decision(DefaultStatus(), None)
      case Success => Decision(status, None)
      case Failed(_) => Decision(status, None)
  }

  /** One reconcile pass: decide, patch the status only when it changed, and
      requeue. */
  function Reconcile(spec: EfsRequestSpec, current: Option<EfsRequestStatus>,
                     provider: ProviderResult, patchOutcome: PatchOutcome): (r: ReconcileReport)
    ensures r.newStatus == Decide(spec, current, provider).newStatus
    ensures r.providerRequest == Decide(spec, current, provider).providerRequest
    ensures r.patch.Some? <==> current != Some(r.newStatus)
    ensures r.patch.Some? ==> r.patch.value == PatchDocument(r.newStatus)
    ensures r.patch.Some? ==> DecodePatchDocument(r.patch.value) == Ok(r.newStatus)
    ensures r.result.Err? <==> r.patch.Some? && patchOutcome.PatchErr?
    ensures r.result.Err? ==> r.result.error == patchOutcome.error
    ensures r.RequeueAfterSecs() == if r.result.Ok? then NormalRequeueSecs else ErrorRequeueSecs
  {
    var d := Decide(spec, current, provider);
    if Some(d.newStatus) != current then
      PatchRoundTrip(d.newStatus);
      var body := PatchDocument(d.newStatus);
      match patchOutcome
      case PatchOk => ReconcileReport(d.newStatus, d.providerRequest, Some(body), Ok(ReconcilerAction(NormalRequeueSecs)))
      case PatchErr(e) => ReconcileReport(d.newStatus, d.providerRequest, Some(body), Err(e))
    else
      ReconcileReport(d.newStatus, d.providerRequest, None, Ok(ReconcilerAction(NormalRequeueSecs)))
  }

  /** The phase transitions a single pass may make, as a table indexed by the
      current phase (an absent status is its own row). */
  predicate TransitionAllowed(from: Option<EfsRequestCondition>, to: EfsRequestCondition)
  {
    match from
    case None => to == Initialised
    case Some(Initialised) => to == CreatingFileSystem || to.Failed?
    case Some(CreatingFileSystem) => to == CreatingFileSystem
    case Some(CreatingMountTargets) => to == Initialised
    case Some(Success) => to == Success
    case Some(Failed(reason)) => to == Failed(reason)
  }

  /** The phase an absent status is treated as. */
  function EffectivePhase(current: Option<EfsRequestStatus>): EfsRequestCondition
  {
    match current
    case None => DefaultCondition()
    case Some(s) => s.condition
  }

  /** Every pass follows the transition table, never moves more than one
      phase forward, and only enters `Failed` from `Initialised` (or stays there). */
  lemma SingleStepProgression(spec: EfsRequestSpec, current: Option<EfsRequestStatus>, provider: ProviderResult)
    ensures TransitionAllowed(if current.None? then None else Some(current.value.condition),
                              Decide(spec, current, provider).newStatus.condition)
    ensures var from := EffectivePhase(current);
            var to := Decide(spec, current, provider).newStatus.condition;
            (!from.Failed? && !to.Failed? ==> Rank(to) <= Rank(from) + 1)
            && (to.Failed? ==> from.Initialised? || from == to)
  {
  }

  /** With no status yet, the pass writes the default status and calls no provider. */
  lemma AbsentStatusGetsDefault(spec: EfsRequestSpec, provider: ProviderResult, patchOutcome: PatchOutcome)
    ensures var r := Reconcile(spec, None, provider, patchOutcome);
            r.newStatus == DefaultStatus() && r.providerRequest.None? && r.patch.Some?
  {
  }

  /** In `Initialised` exactly one creation call is made, tagged with the spec,
      and its result becomes the status. */
  lemma InitialisedCallsProviderOnce(spec: EfsRequestSpec, s: EfsRequestStatus, provider: ProviderResult)
    requires s.condition.Initialised?
    ensures var d := Decide(spec, Some(s), provider);
            d.providerRequest == Some(CreateRequestFor(spec))
            && (provider.Ok? ==> d.newStatus == EfsRequestStatus(Some(provider.value), CreatingFileSystem))
            && (provider.Err? ==> d.newStatus == EfsRequestStatus(None, Failed(FmtAwsError(provider.error))))
  {
  }

  /** An opaque provider error body becomes the failure reason verbatim, with no id. */
  lemma FailureCaptureVerbatim(spec: EfsRequestSpec, s: EfsRequestStatus, body: string)
    requires s.condition.Initialised?
    ensures Decide(spec, Some(s), Err(Unknown(body))).newStatus == EfsRequestStatus(None, Failed(body))
  {
  }

  /** The hold phases are exactly the statuses a pass leaves unchanged, and
      they make no provider call. */
  lemma HoldIffFixpoint(spec: EfsRequestSpec, s: EfsRequestStatus, provider: ProviderResult)
    ensures Decide(spec, Some(s), provider).newStatus == s <==> IsHold(s.condition)
    ensures IsHold(s.condition) ==> Decide(spec, Some(s), provider).providerRequest.None?
  {
  }

  /** Reconciling a hold phase twice gives the same status as once, whatever
      the provider would answer. */
  lemma HoldIsIdempotent(spec: EfsRequestSpec, s: EfsRequestStatus, p1: ProviderResult, p2: ProviderResult)
    requires IsHold(s.condition)
    ensures var once := Decide(spec, Some(s), p1).newStatus;
            Decide(spec, Some(once), p2).newStatus == once
  {
  }

  /** `CreatingMountTargets` falls back to the default status, dropping a
      recorded file system id. */
  lemma MountTargetsResetDiscardsId(spec: EfsRequestSpec, id: string, provider: ProviderResult)
    ensures var d := Decide(spec, Some(EfsRequestStatus(Some(id), CreatingMountTargets)), provider);
            d.newStatus == DefaultStatus() && d.newStatus.fileSystemId.None? && d.providerRequest.None?
  {
  }

  /** A provider call happens only in `Initialised`. */
  lemma ProviderCalledOnlyWhenInitialised(spec: EfsRequestSpec, current: Option<EfsRequestStatus>, provider: ProviderResult)
    ensures Decide(spec, current, provider).providerRequest.Some? ==> EffectivePhase(current).Initialised? && current.Some?
  {
  }

  /** An absent status is always patched, an unchanged one never is, and a
      successful or skipped write requeues after the normal delay. */
  lemma PatchIffChanged(spec: EfsRequestSpec, current: Option<EfsRequestStatus>,
                        provider: ProviderResult, patchOutcome: PatchOutcome)
    ensures var r := Reconcile(spec, current, provider, patchOutcome);
            (current.None? ==> r.patch.Some?)
            && (current.Some? ==> (r.patch.None? <==> r.newStatus == current.value))
            && (r.patch.None? ==> r.result.Ok? && r.RequeueAfterSecs() == NormalRequeueSecs)
            && (patchOutcome.PatchOk? ==> r.RequeueAfterSecs() == NormalRequeueSecs)
  {
  }
}

=== FILE: resource.dfy ===
/** The custom resource the controller reconciles: the user-declared request
    spec, the controller-owned status and the five-phase condition (src/lib.rs). */
module EfsResource {
  import opened Wrappers

  /** What the user asks for: a volume name and its owner. */
  datatype EfsRequestSpec = EfsRequestSpec(name: string, owner: string)

  /** The provisioning phase; only `Failed` carries a payload. */
  datatype EfsRequestCondition =
    | Initialised
    | CreatingFileSystem
    | CreatingMountTargets
    | Success
    | Failed(reason: string)

  /** The status sub-resource written by the controller. */
  datatype EfsRequestStatus = EfsRequestStatus(fileSystemId: Option<string>, condition: EfsRequestCondition)

  /** `EfsRequestCondition::default()`: the first phase of the progress order. */
  function DefaultCondition(): (c: EfsRequestCondition)
    ensures !c.Failed? && Rank(c) == 0
  {
    Initialised
  }

  /** The derived `EfsRequestStatus::default()`: every field takes its own
      default, which gives a status that records no creation yet. */
  function DefaultStatus(): (s: EfsRequestStatus)
    ensures s.fileSystemId.None? && !s.condition.Failed? && Rank(s.condition) == 0
    ensures WellFormed(s)
  {
    EfsRequestStatus(None, DefaultCondition())
  }

  /** The variant name, which is also the value of the wire tag. */
  function PhaseName(c: EfsRequestCondition): string
  {
    match c
    case Initialised => "Initialised"
    case CreatingFileSystem => "CreatingFileSystem"
    case CreatingMountTargets => "CreatingMountTargets"
    case Success => "Success"
    case Failed(_) => "Failed"
  }

  /** Phases the reconciler leaves exactly as they are. */
  predicate IsHold(c: EfsRequestCondition)
  {
    c.CreatingFileSystem? || c.Success? || c.Failed?
  }

  /** A file system id is recorded exactly in the phases that come after a
      successful creation call. */
  predicate WellFormed(s: EfsRequestStatus)
  {
    s.fileSystemId.Some? <==>
      (s.condition.CreatingFileSystem? || s.condition.CreatingMountTargets? || s.condition.Success?)
  }

  /** Progress order of the non-failed phases. */
  function Rank(c: EfsRequestCondition): nat
    requires !c.Failed?
  {
    match c
    case Initialised => 0
    case CreatingFileSystem => 1
    case CreatingMountTargets => 2
    case Success => 3
  }

  // The lemmas below document what the derived `Default` and `PartialEq`
  // impls give; Dafny's structural datatype equality proves them directly.

  /** The default status has no file system id and is in the initial phase,
      and it satisfies the id/phase invariant. */
  lemma DefaultStatusIsInitial()
    ensures DefaultStatus().fileSystemId.None?
    ensures DefaultStatus().condition.Initialised?
    ensures Rank(DefaultStatus().condition) == 0
    ensures WellFormed(DefaultStatus())
  {
  }

  /** Exactly one of the five variants holds, and every variant other than
      `Failed` is the unique value of its kind. */
  lemma FiveVariantsOnlyFailedCarriesPayload(c: EfsRequestCondition)
    ensures (c.Initialised? || c.CreatingFileSystem? || c.CreatingMountTargets? || c.Success? || c.Failed?)
    ensures !c.Failed? ==> c in {Initialised, CreatingFileSystem, CreatingMountTargets, Success}
    ensures c.Failed? ==> c == Failed(c.reason)
    ensures c.Initialised? ==> !(c.CreatingFileSystem? || c.CreatingMountTargets? || c.Success? || c.Failed?)
    ensures c.CreatingFileSystem? ==> !(c.CreatingMountTargets? || c.Success? || c.Failed?)
    ensures c.CreatingMountTargets? ==> !(c.Success? || c.Failed?)
    ensures c.Success? ==> !c.Failed?
  {
  }

  /** Distinct variants have distinct names, so the name identifies the variant. */
  lemma PhaseNameIdentifiesVariant(a: EfsRequestCondition, b: EfsRequestCondition)
    ensures PhaseName(a) == PhaseName(b) <==>
      (a.Initialised? && b.Initialised?) || (a.CreatingFileSystem? && b.CreatingFileSystem?)
      || (a.CreatingMountTargets? && b.CreatingMountTargets?) || (a.Success? && b.Success?)
      || (a.Failed? && b.Failed?)
  {
  }

  /** Condition equality is structural: same variant, and same reason for `Failed`. */
  lemma ConditionEqualityIsStructural(a: EfsRequestCondition, b: EfsRequestCondition)
    ensures a == b <==> PhaseName(a) == PhaseName(b) && (a.Failed? && b.Failed? ==> a.reason == b.reason)
  {
  }

  /** Status equality is structural: equal ids and equal conditions. */
  lemma StatusEqualityIsStructural(a: EfsRequestStatus, b: EfsRequestStatus)
    ensures a == b <==> a.fileSystemId == b.fileSystemId && a.condition == b.condition
  {
  }
}

=== FILE: wire.dfy ===
/** The persisted JSON shape of the status, as serde derives it: the condition
    is internally tagged by `"phase"`, `reason` appears only for `Failed`, and
    an absent file system id is written as `null`. JSON is modelled as a value
    tree; the byte-level text encoding is not part of this model. */
module Wire {
  import opened Wrappers
  import opened EfsResource

  /** The JSON values the status encoding uses. Object members are kept in the
      order serde's derive emits them; that order is a choice of this model, not
      a claim about the bytes sent, and no reader here depends on it. */
  datatype Json = JNull | JString(str: string) | JObject(members: seq<Member>)
  datatype Member = Member(key: string, value: Json)

  /** Why a JSON value is not a valid status. */
  datatype DecodeError =
    | NotAnObject(expected: string)
    | MissingField(field: string)
    | InvalidType(field: string)
    | UnknownVariant(tag: string)

  const PhaseKey := "phase"
  const ReasonKey := "reason"
  const FileSystemIdKey := "file_system_id"
  const ConditionKey := "condition"
  const StatusKey := "status"

  /** The value of the first member named `key`, if any. */
  function Lookup(members: seq<Member>, key: string): (v: Option<Json>)
    ensures v.Some? <==> exists i :: 0 <= i < |members| && members[i].key == key
    ensures v.Some? ==> exists i :: 0 <= i < |members| && members[i] == Member(key, v.value)
                                   && forall j :: 0 <= j < i ==> members[j].key != key
  {
    if |members| == 0 then None
    else if members[0].key == key then Some(members[0].value)
    else
      var rest := Lookup(members[1..], key);
      assert forall i :: 0 <= i < |members[1..]| ==> members[1..][i] == members[i + 1];
      rest
  }

  /** The member names of an object, in order. */
  function Keys(members: seq<Member>): seq<string>
  {
    seq(|members|, i requires 0 <= i < |members| => members[i].key)
  }

  /** Serialises a condition: the tag member first, then the variant's fields. */
  function EncodeCondition(c: EfsRequestCondition): (j: Json)
    ensures j.JObject?
    ensures Lookup(j.members, PhaseKey) == Some(JString(PhaseName(c)))
    ensures Lookup(j.members, ReasonKey).Some? <==> c.Failed?
    ensures c.Failed? ==> Lookup(j.members, ReasonKey) == Some(JString(c.reason))
    ensures Keys(j.members) == if c.Failed? then [PhaseKey, ReasonKey] else [PhaseKey]
  {
    var tag := Member(PhaseKey, JString(PhaseName(c)));
    match c
    case Failed(reason) => JObject([tag, Member(ReasonKey, JString(reason))])
    case _ => JObject([tag])
  }

  /** Deserialises a condition; members other than the tag and `reason` are ignored. */
  function DecodeCondition(j: Json): (r: Result<EfsRequestCondition, DecodeError>)
    ensures r.Ok? ==> j.JObject? && Lookup(j.members, PhaseKey) == Some(JString(PhaseName(r.value)))
    ensures r.Ok? && r.value.Failed? ==> Lookup(j.members, ReasonKey) == Some(JString(r.value.reason))
  {
    if !j.JObject? then Err(NotAnObject("EfsRequestCondition"))
    else
      match Lookup(j.members, PhaseKey)
      case None => Err(MissingField(PhaseKey))
      case Some(JString(tag)) =>
        if tag == "Initialised" then Ok(Initialised)
        else if tag == "CreatingFileSystem" then Ok(CreatingFileSystem)
        else if tag == "CreatingMountTargets" then Ok(CreatingMountTargets)
        else if tag == "Success" then Ok(Success)
        else if tag == "Failed" then
          match Lookup(j.members, ReasonKey)
          case None => Err(MissingField(ReasonKey))
          case Some(JString(reason)) => Ok(Failed(reason))
          case Some(_) => Err(InvalidType(ReasonKey))
        else Err(UnknownVariant(tag))
      case Some(_) => Err(InvalidType(PhaseKey))
  }

  /** `Option<String>` is written as the string or as `null`. */
  function EncodeFileSystemId(id: Option<string>): Json
  {
    match id
    case None => JNull
    case Some(s) => JString(s)
  }

  /** Serialises a status: both fields are always present (listed in declaration order). */
  function EncodeStatus(s: EfsRequestStatus): (j: Json)
    ensures j.JObject?
    ensures Keys(j.members) == [FileSystemIdKey, ConditionKey]
    ensures Lookup(j.members, FileSystemIdKey).Some? && Lookup(j.members, ConditionKey).Some?
    ensures Lookup(j.members, FileSystemIdKey).value == JNull <==> s.fileSystemId.None?
    ensures Lookup(j.members, ConditionKey).value == EncodeCondition(s.condition)
  {
    JObject([Member(FileSystemIdKey, EncodeFileSystemId(s.fileSystemId)),
             Member(ConditionKey, EncodeCondition(s.condition))])
  }

  /** Deserialises a status. A missing or `null` id reads as `None`; the
      condition is required, since the struct's `Default` is not used by serde. */
  function DecodeStatus(j: Json): (r: Result<EfsRequestStatus, DecodeError>)
    ensures r.Ok? ==> j.JObject? && Lookup(j.members, ConditionKey).Some?
    ensures r.Ok? ==> DecodeCondition(Lookup(j.members, ConditionKey).value) == Ok(r.value.condition)
    ensures r.Ok? && r.value.fileSystemId.Some? ==>
      Lookup(j.members, FileSystemIdKey) == Some(JString(r.value.fileSystemId.value))
  {
    if !j.JObject? then Err(NotAnObject("EfsRequestStatus"))
    else
      var id: Result<Option<string>, DecodeError> :=
        match Lookup(j.members, FileSystemIdKey)
        case None => Ok(None)
        case Some(JNull) => Ok(None)
        case Some(JString(s)) => Ok(Some(s))
        case Some(_) => Err(InvalidType(FileSystemIdKey));
      if id.Err? then Err(id.error)
      else
        match Lookup(j.members, ConditionKey)
        case None => Err(MissingField(ConditionKey))
        case Some(c) =>
          match DecodeCondition(c)
          case Ok(cond) => Ok(EfsRequestStatus(id.value, cond))
          case Err(e) => Err(e)
  }

  /** The merge patch body `{"status": ...}` sent to the status sub-resource. */
  function PatchDocument(s: EfsRequestStatus): (j: Json)
    ensures j.JObject? && Keys(j.members) == [StatusKey]
    ensures Lookup(j.members, StatusKey) == Some(EncodeStatus(s))
  {
    JObject([Member(StatusKey, EncodeStatus(s))])
  }

  /** Reads the status back out of a patch body; used to state that a patch
      body carries its status (`PatchRoundTrip`). */
  function DecodePatchDocument(j: Json): Result<EfsRequestStatus, DecodeError>
  {
    if !j.JObject? then Err(NotAnObject("status patch"))
    else
      match Lookup(j.members, StatusKey)
      case None => Err(MissingField(StatusKey))
      case Some(s) => DecodeStatus(s)
  }

  /** Decoding an encoded condition gives the condition back. */
  lemma ConditionRoundTrip(c: EfsRequestCondition)
    ensures DecodeCondition(EncodeCondition(c)) == Ok(c)
  {
  }

  /** Any object whose `phase` names a variant (and, for `Failed`, whose
      `reason` is a string) decodes to that variant, whatever order its members
      come in and whatever other members it has. */
  lemma DecodeConditionComplete(j: Json, c: EfsRequestCondition)
    requires j.JObject? && Lookup(j.members, PhaseKey) == Some(JString(PhaseName(c)))
    requires c.Failed? ==> Lookup(j.members, ReasonKey) == Some(JString(c.reason))
    ensures DecodeCondition(j) == Ok(c)
  {
  }

  /** Any object with a decodable `condition` and a missing, `null` or string
      `file_system_id` decodes to the matching status, whatever order its
      members come in and whatever other members it has. */
  lemma DecodeStatusComplete(j: Json, s: EfsRequestStatus)
    requires j.JObject? && Lookup(j.members, ConditionKey).Some?
    requires DecodeCondition(Lookup(j.members, ConditionKey).value) == Ok(s.condition)
    requires s.fileSystemId.None? ==> Lookup(j.members, FileSystemIdKey) in {None, Some(JNull)}
    requires s.fileSystemId.Some? ==> Lookup(j.members, FileSystemIdKey) == Some(JString(s.fileSystemId.value))
    ensures DecodeStatus(j) == Ok(s)
  {
  }

  /** Decoding an encoded status gives the status back. */
  lemma StatusRoundTrip(s: EfsRequestStatus)
    ensures DecodeStatus(EncodeStatus(s)) == Ok(s)
  {
    ConditionRoundTrip(s.condition);
  }

  /** The status carried by a patch body is the status it was built from. */
  lemma PatchRoundTrip(s: EfsRequestStatus)
    ensures DecodePatchDocument(PatchDocument(s)) == Ok(s)
  {
    StatusRoundTrip(s);
  }

  /** Distinct statuses are persisted as distinct documents. */
  lemma EncodeStatusInjective(a: EfsRequestStatus, b: EfsRequestStatus)
    ensures EncodeStatus(a) == EncodeStatus(b) <==> a == b
  {
    StatusRoundTrip(a);
    StatusRoundTrip(b);
  }
}

=== FILE: wrappers.dfy ===
/** Option and Result: the two failure-carrying shapes the model needs. */
module Wrappers {

  /** An optional value, as Rust's `Option<T>`. */
  datatype Option<+T> = None | Some(value: T)

  /** A value or an error, as Rust's `Result<T, E>`. */
  datatype Result<+T, +E> = Ok(value: T) | Err(error: E)
}
